=== FILE: README.md ===
# DeskPins language options page — a Dafny model

DeskPins keeps chosen windows always on top. Its options dialog has a
language page where the user picks the UI language (a resource library
`lang*.dll`, or the program's built-in strings) and the help language (a
compiled help file `DeskPins*.chm`). This project models the logic of that
page in `optlang.cpp` and proves properties of the model:

- **Help-file trailer.** A help file can carry a description of its
  language at its end. The layout is: file data, then `len` raw bytes in the
  thread's ANSI code page, then `len` as a little-endian DWORD, then the
  signature `0xefda7a00` as a little-endian DWORD. `getHelpFileDescr` reads
  these back from the end of the file. It does three backward reads through
  the file pointer (`readFileBack`: seek back, read, seek back). Every failure
  gives an empty description. Modules `Bytes`, `FileCursor`, `HelpTrailer`.
- **UI-language description.** `getLangFileDescr` reads the string IDS_LANG
  from a language library, or from the program itself for the built-in
  language, and releases any library it loaded. Module `LangResources`.
- **Candidate lists.** `loadLangFiles` and `loadHelpFiles` turn the file names
  a directory scan found into combo-box entries. The UI list gets one extra,
  last entry with an empty file name for the built-in language. An entry whose
  insertion fails is dropped. The entry whose file name equals the current
  setting, ignoring case (`strimatch`), is selected. Modules `CaseFold`,
  `ComboBox`, `Candidates`.
- **Apply and ordering.** `apply` stores the selections in the option record.
  It switches the UI module only when the UI selection changed, and falls back
  to the built-in language if the switch fails. It always stores the help
  selection and restarts help. `WM_COMPAREITEM` maps `CompareString`'s 1/2/3
  to -1/0/1. Module `LangPage`.

Operating-system services are parameters of the model:

- the directory scan is a list of file names;
- a file's bytes are an `Option<seq<byte>>`, with None when it cannot be opened;
- `LoadLibrary` and the string table are a `Resources` value;
- whether each `CB_ADDSTRING` succeeds is a `seq<bool>`;
- whether `loadResMod` succeeds is a predicate on file names;
- `CompareString` is a function returning an `Order`;
- `MultiByteToWideChar` is a byte-to-character map.

The comment above the trailer layout (optlang.cpp:80) calls the description
`WCHAR data[size]`. The code reads `len` single bytes and converts them from
the ANSI code page (optlang.cpp:93-97). The model follows the code.

## Model

| member | source | states |
|---|---|---|
| Bytes.Dword | optlang.cpp:89-91 | the DWORD loaded into `sig` or `len` from four file bytes has the first byte as its least significant byte and the last as its most significant |
| Bytes.DwordOfLe32 | optlang.cpp:85-91 | a DWORD stored little-endian in the file and loaded back by `ReadFile` into `sig`/`len` is the same value |
| Bytes.Le32OfDword | optlang.cpp:85-91 | every 4 bytes are the encoding of the DWORD loaded from them, so the encoding is unique |
| Bytes.Le32Injective | optlang.cpp:89-90 | two DWORDs are equal exactly when their 4-byte encodings are, so the signature test compares bytes |
| FileCursor.AtEnd | optlang.cpp:88 | opening the file and moving to its end puts the pointer at the file's size |
| FileCursor.SeekBack | optlang.cpp:69 | moving the pointer back `n` bytes succeeds exactly when it is at least `n` from the start, and moves it by exactly `n` |
| FileCursor.Read | optlang.cpp:70-71 | a read returns the bytes at the pointer, is short exactly when the end of file comes first, and advances the pointer by what it read |
| FileCursor.ReadBack | optlang.cpp:66-73 | `readFileBack(n)` succeeds exactly when the pointer is at least `n` from the start; it then yields the `n` bytes before the pointer and leaves the pointer at their start |
| FileCursor.ReadBackTwice | optlang.cpp:87-94 | two consecutive backward reads cover adjacent stretches without overlap; in file order they are the bytes just before the pointer |
| HelpTrailer.ParseTrailer | optlang.cpp:84-94 | the three backward reads: a file under 4 bytes, or with a wrong signature, fails after one read; a signed file under 8 bytes fails after two; otherwise a `len` read follows, which succeeds exactly when `len <= size - 8` and yields the `len` bytes before the length field |
| HelpTrailer.Convert | optlang.cpp:95-97 | the converted description has one character per payload byte, each the decoding of its byte; an empty payload gives an empty description |
| HelpTrailer.HelpFileDescr | optlang.cpp:76-101 | a file that cannot be opened, is under 8 bytes, has a wrong signature or a `len` above `size - 8` gives ""; otherwise the description is the `len` bytes before the length field, decoded |
| HelpTrailer.LayoutFields | optlang.cpp:78-91 | in a laid-out file the last four bytes hold the signature, the four before them hold the payload length, and the payload sits just before those |
| HelpTrailer.TrailerFields | optlang.cpp:85-91 | the last eight bytes of a signed file are exactly the encodings of its length field and of the signature |
| HelpTrailer.ParseLayout | optlang.cpp:78-94 | any data followed by payload P, `le32(|P|)` and `le32(0xefda7a00)` is accepted, with reads of 4, 4 and `|P|` bytes, and yields exactly P |
| HelpTrailer.ParseSound | optlang.cpp:78-94 | whatever the reader accepts is such a layout: the file is its data, the payload, its length and the signature |
| HelpTrailer.AcceptedIsLayout | optlang.cpp:78-94 | a file the reader accepts with payload P is some data followed by P, its length and the signature |
| HelpTrailer.LayoutIsAccepted | optlang.cpp:78-94 | a file equal to some data followed by P, its length and the signature is accepted with payload P |
| HelpTrailer.ParseIff | optlang.cpp:78-94 | the reader yields payload P exactly when the file is some data followed by P, its length and the signature |
| HelpTrailer.HelpFileDescrRoundTrip | optlang.cpp:76-101 | round trip: a laid-out file with payload P yields a description of length `|P|` whose characters decode P |
| HelpTrailer.HelpFileDescrOnlyFromLayout | optlang.cpp:76-101 | a non-empty description comes only from a laid-out file, and is its decoded payload |
| CaseFold.StrIMatch | util.h:39-42 | `strimatch`: names that match have equal length, and every name matches itself |
| CaseFold.StrIMatchIsCharwise | util.h:39-42 | `strimatch` holds exactly when the names have equal length and agree character by character after folding |
| CaseFold.StrIMatchEquivalence | util.h:39-42 | `strimatch` is reflexive, symmetric and transitive |
| CaseFold.EmptyMatchesOnlyEmpty | util.h:39-42 | only the empty name matches the empty name, so the built-in entry is selected only for an empty setting |
| CaseFold.CapitalsMatch | util.h:39-42 | "LANG_FR.DLL" matches "lang_fr.dll"; "lang_fr.dll" does not match "lang_de.dll" |
| LangResources.Instance | optlang.cpp:36 | the empty file name uses the program's own module; any other name uses the library loaded from it, if loading succeeds |
| LangResources.LoadStringCount | optlang.cpp:38 | `LoadString` copies nothing for a missing string; otherwise it copies the whole string when it has fewer than `cchMax` characters, and exactly its first `cchMax - 1` characters when it is longer |
| LangResources.BufferWrites | optlang.cpp:38 | `LoadString` stores at most `cchMax` characters, counting the terminating NUL |
| LangResources.LangFileDescr | optlang.cpp:34-43 | `getLangFileDescr` with the corrected `LoadString` count of 100 characters, where the source passes 200 (see Findings): the description is the module's whole IDS_LANG string when it is under 100 characters and its first 99 characters otherwise; it is "" when the module or string is missing; only a library loaded here is freed, never the program's own module |
| LangResources.BufferWritesAsWritten | optlang.cpp:37-38 | with the character count the source passes (200), `LoadString` stores the IDS_LANG string and its NUL, up to 200 characters in all, into the 100-character buffer; a missing module or string stores nothing |
| LangResources.AsWrittenOverflows | optlang.cpp:37-38 | as written, `LoadString` writes past the buffer exactly when the IDS_LANG string has 100 or more characters; shorter strings fit |
| LangResources.CorrectedFits | optlang.cpp:37-38 | with the buffer's real character count, `LoadString` stores exactly the description `LangFileDescr` returns plus its NUL, and that fits the 100-character buffer |
| ComboBox.Kept | optlang.cpp:56-58 | the entries that reach the list are at most the candidates offered |
| ComboBox.KeptIndices | optlang.cpp:56-58 | the list holds exactly the candidates whose insertion succeeded, in the order offered: their positions, strictly increasing, include every successful insertion and no failed one |
| ComboBox.IndexesExtend | optlang.cpp:56-58 | proof step for `KeptIndices`: offering one more candidate adds its position to the listing exactly when its insertion succeeds |
| ComboBox.KeptMembers | optlang.cpp:56-58 | an entry reaches the list exactly when its insertion succeeded; entries whose insertion failed are dropped |
| ComboBox.KeptAll | optlang.cpp:56-58 | when every insertion succeeds, the list holds every candidate in order |
| ComboBox.LastMatch | optlang.cpp:59-60 | the selected index is an entry for the current name with no later such entry; there is none exactly when no entry matches |
| ComboBox.Populated | optlang.cpp:51-61 | offering the candidates keeps the combo box well formed: a selection always names an existing item |
| ComboBox.PopulatedSelection | optlang.cpp:51-61 | after the candidates are offered, the list is the old items plus the kept candidates in order; the selection moves only to a kept entry for the current name, the last one, and stays put exactly when no kept entry matches |
| ComboBox.AddOne | optlang.cpp:56-60 | one insertion: a failed insertion changes nothing; a successful one appends the entry and selects it if it matches the current name |
| ComboBox.KeptStep | optlang.cpp:56-58 | proof step for the insertion loop: the kept entries of a candidate prefix one longer are those of the shorter prefix plus the new candidate if its insertion succeeded |
| ComboBox.LastMatchStep | optlang.cpp:59-60 | proof step for the insertion loop: after appending an entry, the last match is that entry if it is for the current name, and the previous last match otherwise |
| ComboBox.AddOneKept | optlang.cpp:56-60 | one insertion turns the combo box for kept entries `k` into the one for `k` plus the entry if it was added, selection included |
| ComboBox.AddOneStep | optlang.cpp:51-61 | one loop pass extends the kept entries and keeps the selection at the last kept match |
| ComboBox.AddCandidates | optlang.cpp:51-61 | the insertion loop yields the combo box described by `Populated` |
| ComboBox.ComboSel | optlang.cpp:20-31 | `getComboSel` returns the file name of the selected item when the selection names an item, "" when nothing is selected, and a non-empty name only in the first case |
| ComboBox.SelectedName | optlang.cpp:20-31 | when some kept entry is for the current name, `getComboSel` on the filled combo box returns the file name of the last such entry |
| ComboBox.SelectionRoundTrip | optlang.cpp:20-31 | after filling a fresh combo box, the selection reads back as a name matching the current setting when some kept entry matches, and as "" otherwise |
| Candidates.DisplayName | optlang.cpp:54 | a language file is shown under its own name, the built-in language under the program's file name |
| Candidates.LangCandidates | optlang.cpp:48-55 | one entry per file found, in order, then one entry with an empty name; each carries its module's description as the corrected `getLangFileDescr` returns it (see Findings: the whole IDS_LANG string under 100 characters, its first 99 otherwise); a non-empty name is shown as itself, the empty one as the program's file name |
| Candidates.SingleBuiltIn | optlang.cpp:48-49 | as scanned names are never empty, the built-in entry is the only one with an empty name and it is last |
| Candidates.HelpCandidates | optlang.cpp:106-112 | one entry per help file, in order, shown under its own name and described by its trailer; no extra entry |
| Candidates.LoadLangFiles | optlang.cpp:46-63 | filling the UI-language combo box gives the `Populated` combo box of the UI candidates |
| Candidates.LoadHelpFiles | optlang.cpp:104-121 | filling the help combo box gives the `Populated` combo box of the help candidates |
| Candidates.EmptyLangDirectory | optlang.cpp:48-61 | with no language files, a fresh combo box holds only the built-in entry, selected exactly when the setting is empty, if its insertion succeeds; if it fails, the combo box stays empty with nothing selected |
| Candidates.EmptyHelpDirectory | optlang.cpp:106-119 | with no help files, the help combo box is unchanged |
| LangPage.Apply | optlang.cpp:158-172 | an unchanged UI selection keeps the stored name and makes no switch; a changed one calls `loadResMod` once and stores the selection or, on failure, ""; the help selection is always stored and help restarted last, once |
| LangPage.ApplyStoresSelectedEntries | optlang.cpp:162-170 | apply stores the file name of the selected help entry ("" when none is selected), and, when the selected UI entry differs from the stored name, that entry's file name if the switch succeeds and "" if it fails |
| LangPage.ApplyUnchanged | optlang.cpp:162-172 | when the UI selection equals the stored name, apply only stores the help selection and restarts help |
| LangPage.ApplyTwice | optlang.cpp:158-172 | after an apply that left the UI file at the selection, a second apply with the same selections changes nothing and only restarts help |
| LangPage.FailedSwitchRetried | optlang.cpp:163-167 | after a failed switch the stored name is "", so the next apply tries the same switch again |
| LangPage.ReopenKeepsUiFile | optlang.cpp:59-60 | opening the page and applying untouched keeps the UI file and makes no switch, when the selected entry carries exactly the stored name |
| LangPage.StaleUiFileFallsBack | optlang.cpp:162-167 | opening the page and applying untouched, when no listed entry matches the stored UI file, switches to the built-in language |
| LangPage.CompareItems | optlang.cpp:254-266 | the item order is -1 exactly when both entries exist and `CompareString` says less, 1 exactly when it says greater, otherwise 0 |
| LangPage.CompareItemsAntisymmetric | optlang.cpp:254-266 | with an antisymmetric `CompareString`, swapping the items negates the order |

## Left out

- The dialog procedure's message dispatch is event glue and is not modelled. This covers `PSN_SETACTIVE`, `PSN_KILLACTIVE`, `PSN_HELP`, `WM_HELP` and `CBN_SELCHANGE`.
- `evInitDialog` is not modelled: its missing-parameter cancel, the choice of directory (including the DEBUG variant) and the two load calls are glue around `LoadLangFiles`/`LoadHelpFiles`. `validate` always succeeds and has no logic.
- `WM_MEASUREITEM` and `WM_DRAWITEM` are GDI painting.
- `WM_DELETEITEM` and the `new`/`delete` of `Data` are not modelled, because entries are values owned by the combo box.
- The directory scan `getFiles` is not modelled: the file names it returns are an input.
- `MultiByteToWideChar` is a byte-to-character map, i.e. a single-byte code page. With a double-byte code page it writes fewer than `len` characters, but the source still copies `len` of them; the model cannot express those trailing characters.
- `CompareString` is an abstract comparison; locale rules are not modelled.
- `LoadLibrary`, `LoadString`'s string table, `FreeLibrary`, `loadResMod` and `help.init` are parameters or recorded calls.
- `CB_ADDSTRING` is modelled as appending. The page handles `WM_COMPAREITEM` (optlang.cpp:254-266), which Windows sends only to sorted owner-drawn combo boxes, so the real list inserts each entry at its sorted position. The positions of the entries then differ from the model's. The kept entries and the selected entry do not change, and neither does the name `getComboSel` returns: either way the last matching entry inserted is the one selected.
- LangResources.LangFileDescr: strings are sequences of Unicode scalar values, while `WCHAR buf[100]` and `LoadStringW`'s count are in UTF-16 code units. The 100-character buffer and the 99-character cut match the source only for text inside the Basic Multilingual Plane. A string with characters outside it takes two code units per such character: the source cuts it sooner, possibly between the two halves of a surrogate pair, and the model does not.
- LangResources.AsWrittenOverflows: the same counting applies. The overflow happens when the string has 100 or more UTF-16 code units, which for text outside the Basic Multilingual Plane is fewer than 100 characters; the lemma counts characters.
- Candidates.LangCandidates: each entry's description comes from the corrected `LangFileDescr`. The source calls `getLangFileDescr` as written (optlang.cpp:55), which overflows its buffer for an IDS_LANG string of 100 or more characters (see Findings); what it returns after such an overflow is not modelled.
- HelpTrailer.HelpFileDescr: requires a signed file's `len` field to be below 2^31. Larger values turn negative in the `int` cast of `readFileBack`, and `new char[len]` may fail to allocate.
- HelpTrailer.ParseTrailer: assumes the allocation `new char[len]` succeeds.
- HelpTrailer.ParseTrailer: files of 4 GiB or more, where the 32-bit file pointer calls may fail, are not modelled.
- FileCursor.Read: `ReadFile` fails only by returning fewer bytes than asked. Device errors are not modelled.
- CaseFold.StrIMatchIsCharwise: `_wcsicmp` is modelled in the default "C" locale, where only A-Z fold. Other locales are not modelled.
- ComboBox.AddOne: `CB_ADDSTRING` is modelled as either succeeding or failing with `CB_ERR`. The source tests only for `CB_ERR` (optlang.cpp:57, 114), so on `CB_ERRSPACE` the entry is neither deleted nor added, and a matching entry sends `CB_SETCURSEL(-2)`, which clears the selection. The model does not express that out-of-memory path.
- ComboBox.ComboSel: `getComboSel` returns "" when an item carries no data pointer. In the model every item carries an entry, so that branch cannot occur.

## Findings

| source | as written | input that shows it | evidently intended | confidence | as-written member | corrected member |
|---|---|---|---|---|---|---|
| optlang.cpp:37-38 | `getLangFileDescr` gives `LoadString` the buffer's size in bytes (200) as its size in characters, but the buffer holds 100 characters | an IDS_LANG string of 100 or more characters: `LoadString` stores up to 199 characters and a NUL | pass the buffer's character count, 100, so the string is cut to 99 characters | high on the reading of the code; not executed | LangResources.BufferWritesAsWritten, LangResources.AsWrittenOverflows | LangResources.LangFileDescr, LangResources.CorrectedFits |

=== FILE: bytes.dfy ===
/** Bytes and the little-endian 32-bit words (Win32 DWORDs) stored in a file. */
module Bytes {

  /** One byte of file data. */
  type byte = b: nat | b < 256

  /** An unsigned 32-bit value, the Win32 DWORD. */
  type dword = n: nat | n < 0x1_0000_0000

  /** The four bytes an x86 machine stores for `n`, least significant first. */
  function Le32(n: dword): (b: seq<byte>)
    ensures |b| == 4
  {
    var q1 := n / 256;
    var q2 := q1 / 256;
    [n % 256, q1 % 256, q2 % 256, q2 / 256]
  }

  /** The DWORD an x86 machine loads from four bytes of memory. */
  function Dword(b: seq<byte>): (n: dword)
    requires |b| == 4
    ensures n % 256 == b[0]
    ensures n / 0x100_0000 == b[3]
  {
    var hi := b[1] as int + 256 * (b[2] as int + 256 * b[3] as int);
    LowByte(b[0], hi);
    assert b[0] as int + 256 * hi == b[0] as int + 256 * b[1] as int + 0x1_0000 * b[2] as int + 0x100_0000 * b[3] as int;
    b[0] as int + 256 * (b[1] as int + 256 * (b[2] as int + 256 * b[3] as int))
  }

  /** Splitting off the low byte of a number, and putting it back. */
  lemma LowByte(lo: nat, hi: nat)
    requires lo < 256
    ensures (lo + 256 * hi) % 256 == lo && (lo + 256 * hi) / 256 == hi
  {
  }

  /** Storing a DWORD and loading it back yields the same value. */
  lemma DwordOfLe32(n: dword)
    ensures Dword(Le32(n)) == n
  {
    var q1 := n / 256;
    var q2 := q1 / 256;
    assert n == n % 256 + 256 * q1;
    assert q1 == q1 % 256 + 256 * q2;
    assert q2 == q2 % 256 + 256 * (q2 / 256);
  }

  /** Loading four bytes and storing the DWORD back yields the same bytes:
      every DWORD has exactly one encoding. */
  lemma Le32OfDword(b: seq<byte>)
    requires |b| == 4
    ensures Le32(Dword(b)) == b
  {
    var q2: nat := b[2] as int + 256 * b[3] as int;
    var q1: nat := b[1] as int + 256 * q2;
    var n := Dword(b);
    assert n == b[0] as int + 256 * q1;
    LowByte(b[0], q1);
    LowByte(b[1], q2);
    LowByte(b[2], b[3]);
    assert Le32(n) == [b[0], b[1], b[2], b[3]];
  }

  /** Two DWORDs are equal exactly when their byte encodings are. */
  lemma Le32Injective(m: dword, n: dword)
    ensures Le32(m) == Le32(n) <==> m == n
  {
    if Le32(m) == Le32(n) {
      DwordOfLe32(m);
      DwordOfLe32(n);
    }
  }
}

=== FILE: candidates.dfy ===
/** `loadLangFiles` and `loadHelpFiles`: the candidate entries built from the
    file names a directory scan returned, and the combo boxes filled with them. */
module Candidates {
  import opened Wrappers
  import opened Bytes
  import opened HelpTrailer
  import opened LangResources
  import opened ComboBox
  import CaseFold

  /** The name shown for a UI-language file: the file name itself, or the
      program's own file name for the built-in language. */
  function DisplayName(f: string, exeName: string): (d: string)
    ensures f != "" ==> d == f
    ensures f == "" ==> d == exeName
  {
    if f == "" then exeName else f
  }

  /** The UI-language candidates: one per file found (`lang*.dll`), in the
      order found, then the built-in language, whose file name is empty. */
  function LangCandidates(files: seq<string>, exeName: string, res: Resources): (es: seq<Entry>)
    ensures |es| == |files| + 1
    ensures forall i :: 0 <= i < |files| ==> es[i].fname == files[i]
    ensures es[|files|].fname == ""
    ensures forall i :: 0 <= i < |es| ==> es[i].descr == LangFileDescr(res, es[i].fname).descr
    ensures forall i :: 0 <= i < |es| && es[i].fname != "" ==> es[i].dispName == es[i].fname
    ensures forall i :: 0 <= i < |es| && es[i].fname == "" ==> es[i].dispName == exeName
  {
    var all := files + [""];
    seq(|all|, i requires 0 <= i < |all| =>
      Entry(all[i], DisplayName(all[i], exeName), LangFileDescr(res, all[i]).descr))
  }

  /** The file names a scan returns are never empty, so the built-in language
      is the one candidate with an empty file name, and it comes last. */
  lemma SingleBuiltIn(files: seq<string>, exeName: string, res: Resources)
    requires forall i :: 0 <= i < |files| ==> files[i] != ""
    ensures var es := LangCandidates(files, exeName, res);
            forall i :: 0 <= i < |es| ==> (es[i].fname == "" <==> i == |files|)
  {
  }

  /** The help-file contents the model covers: a readable file never carries a
      length field of 2^31 or more. */
  predicate HelpFilesFit(files: seq<string>, contents: string -> Option<seq<byte>>)
  {
    forall i :: 0 <= i < |files| ==>
      contents(files[i]).Some? ==> LenFieldFits(contents(files[i]).value)
  }

  /** The help-language candidates: one per file found (`DeskPins*.chm`), in the
      order found, shown under its own name and described by its trailer.
      `contents` gives a file's bytes, or None when it cannot be opened. */
  function HelpCandidates(files: seq<string>, contents: string -> Option<seq<byte>>,
                          decode: byte -> char): (es: seq<Entry>)
    requires HelpFilesFit(files, contents)
    ensures |es| == |files|
    ensures forall i :: 0 <= i < |files| ==> es[i].fname == files[i] && es[i].dispName == files[i]
    ensures forall i :: 0 <= i < |files| ==> es[i].descr == HelpFileDescr(contents(files[i]), decode)
  {
    seq(|files|, i requires 0 <= i < |files| =>
      Entry(files[i], files[i], HelpFileDescr(contents(files[i]), decode)))
  }

  /** `loadLangFiles`: offers the UI-language candidates to the combo box;
      `ok[i]` tells whether the i-th insertion succeeds. */
  method LoadLangFiles(c: Combo, files: seq<string>, cur: string, exeName: string,
                       res: Resources, ok: seq<bool>) returns (r: Combo)
    requires Valid(c) && |ok| == |files| + 1
    ensures r == Populated(c, LangCandidates(files, exeName, res), ok, cur)
  {
    r := AddCandidates(c, LangCandidates(files, exeName, res), ok, cur);
  }

  /** `loadHelpFiles`: offers the help-language candidates to the combo box;
      `ok[i]` tells whether the i-th insertion succeeds. */
  method LoadHelpFiles(c: Combo, files: seq<string>, cur: string,
                       contents: string -> Option<seq<byte>>, decode: byte -> char,
                       ok: seq<bool>) returns (r: Combo)
    requires Valid(c) && |ok| == |files| && HelpFilesFit(files, contents)
    ensures r == Populated(c, HelpCandidates(files, contents, decode), ok, cur)
  {
    r := AddCandidates(c, HelpCandidates(files, contents, decode), ok, cur);
  }

  /** An empty language directory still offers the built-in language: when its
      one insertion succeeds, a fresh combo box ends up holding that entry,
      selected when the current setting is the built-in one; when it fails, the
      combo box stays empty with nothing selected. */
  lemma EmptyLangDirectory(exeName: string, res: Resources, ok: seq<bool>, cur: string)
    requires |ok| == 1
    ensures var r := Populated(Empty, LangCandidates([], exeName, res), ok, cur);
            ok[0] ==>
              r.items == [Entry("", exeName, LangFileDescr(res, "").descr)] &&
              (cur == "" ==> r.sel == Some(0)) && (cur != "" ==> r.sel == None)
    ensures var r := Populated(Empty, LangCandidates([], exeName, res), ok, cur);
            !ok[0] ==> r.items == [] && r.sel == None
  {
    var es := LangCandidates([], exeName, res);
    if ok[0] {
      KeptAll(es, ok);
      CaseFold.EmptyMatchesOnlyEmpty(cur);
    } else {
      assert Kept(es, ok) == Kept([], []);
    }
  }

  /** An empty help directory offers nothing: the combo box is unchanged. */
  lemma EmptyHelpDirectory(c: Combo, contents: string -> Option<seq<byte>>,
                           decode: byte -> char, cur: string)
    requires Valid(c)
    ensures Populated(c, HelpCandidates([], contents, decode), [], cur) == c
  {
  }
}

=== FILE: case_fold.dfy ===
/** `strimatch`: case-insensitive equality of file names, as `_wcsicmp`
    computes it in the default "C" locale, where only the letters A-Z fold. */
module CaseFold {

  /** The lower-case form of an ASCII capital; every other character is kept. */
  function LowerAscii(c: char): (d: char)
    ensures 'A' <= c <= 'Z' ==> d as int == c as int + 32
    ensures !('A' <= c <= 'Z') ==> d == c
  {
    if 'A' <= c <= 'Z' then (c as int + 32) as char else c
  }

  /** The name with every ASCII capital lowered. */
  function Fold(s: string): (t: string)
    ensures |t| == |s|
  {
    seq(|s|, i requires 0 <= i < |s| => LowerAscii(s[i]))
  }

  /** `strimatch(a, b)`: the names agree once case is folded. */
  predicate StrIMatch(a: string, b: string)
    ensures StrIMatch(a, b) ==> |a| == |b|
    ensures a == b ==> StrIMatch(a, b)
  {
    Fold(a) == Fold(b)
  }

  /** The comparison `_wcsicmp` performs: same length, and the folded
      characters agree position by position. */
  predicate CharwiseMatch(a: string, b: string)
  {
    |a| == |b| && forall i :: 0 <= i < |a| ==> LowerAscii(a[i]) == LowerAscii(b[i])
  }

  /** Folding whole names and comparing characters one by one agree. */
  lemma StrIMatchIsCharwise(a: string, b: string)
    ensures StrIMatch(a, b) <==> CharwiseMatch(a, b)
  {
    assert forall i :: 0 <= i < |a| ==> Fold(a)[i] == LowerAscii(a[i]);
    assert forall i :: 0 <= i < |b| ==> Fold(b)[i] == LowerAscii(b[i]);
    if CharwiseMatch(a, b) {
      assert forall i :: 0 <= i < |a| ==> Fold(a)[i] == Fold(b)[i];
    }
  }

  /** `strimatch` is an equivalence on names. */
  lemma StrIMatchEquivalence(a: string, b: string, c: string)
    ensures StrIMatch(a, a)
    ensures StrIMatch(a, b) ==> StrIMatch(b, a)
    ensures StrIMatch(a, b) && StrIMatch(b, c) ==> StrIMatch(a, c)
  {
  }

  /** Only the empty name matches the empty name. */
  lemma EmptyMatchesOnlyEmpty(s: string)
    ensures StrIMatch("", s) <==> s == ""
  {
    if StrIMatch("", s) {
      assert |Fold(s)| == 0;
    }
  }

  /** A name written in capitals matches the name found on disk. */
  lemma CapitalsMatch()
    ensures StrIMatch("LANG_FR.DLL", "lang_fr.dll")
    ensures !StrIMatch("lang_fr.dll", "lang_de.dll")
  {
    var upper, fr, de := "LANG_FR.DLL", "lang_fr.dll", "lang_de.dll";
    assert CharwiseMatch(upper, fr) by {
      forall i | 0 <= i < |upper|
        ensures LowerAscii(upper[i]) == LowerAscii(fr[i])
      {
      }
    }
    StrIMatchIsCharwise(upper, fr);
    assert LowerAscii(fr[5]) != LowerAscii(de[5]);
    StrIMatchIsCharwise(fr, de);
  }
}

=== FILE: combo_box.dfy ===
/** The language combo boxes: candidate entries, the list a combo box holds,
    and the selection it reports. Entries are values; the combo box owns them
    once added. */
module ComboBox {
  import opened Wrappers
  import opened CaseFold

  /** One candidate (`Data`): the file name (empty for the built-in language),
      the name shown at the right, and the description shown at the left. */
  datatype Entry = Entry(fname: string, dispName: string, descr: string)

  /** A combo box: its items in order and the index of the selected one. */
  datatype Combo = Combo(items: seq<Entry>, sel: Option<nat>)

  /** The selection, if any, names an item. */
  predicate Valid(c: Combo)
  {
    c.sel.Some? ==> c.sel.value < |c.items|
  }

  /** A freshly created combo box. */
  const Empty: Combo := Combo([], None)

  /** The entry is the one for the current file name (`strimatch(fname, cur)`). */
  predicate Matches(e: Entry, cur: string)
  {
    StrIMatch(e.fname, cur)
  }

  /** The entries whose `CB_ADDSTRING` succeeded (`ok[i]`), in order; the others
      are deleted and never reach the list. */
  function Kept(es: seq<Entry>, ok: seq<bool>): (k: seq<Entry>)
    requires |ok| == |es|
    ensures |k| <= |es|
  {
    if |es| == 0 then []
    else Kept(es[.. |es| - 1], ok[.. |ok| - 1]) + (if ok[|ok| - 1] then [es[|es| - 1]] else [])
  }

  /** An entry reaches the list exactly when one of its insertions succeeded. */
  lemma {:induction false} KeptMembers(es: seq<Entry>, ok: seq<bool>, e: Entry)
    requires |ok| == |es|
    ensures e in Kept(es, ok) <==> exists i :: 0 <= i < |es| && ok[i] && es[i] == e
  {
    if |es| > 0 {
      var n := |es| - 1;
      KeptMembers(es[.. n], ok[.. n], e);
      if e in Kept(es, ok) && e !in Kept(es[.. n], ok[.. n]) {
        assert ok[n] && es[n] == e;
      }
      if i :| 0 <= i < |es| && ok[i] && es[i] == e {
        if i < n {
          assert es[.. n][i] == e && ok[.. n][i];
        }
      }
    }
  }

  /** When every insertion succeeds, every candidate is kept, in order. */
  lemma {:induction false} KeptAll(es: seq<Entry>, ok: seq<bool>)
    requires |ok| == |es|
    requires forall i :: 0 <= i < |ok| ==> ok[i]
    ensures Kept(es, ok) == es
  {
    if |es| > 0 {
      KeptAll(es[.. |es| - 1], ok[.. |ok| - 1]);
    }
  }

  /** `idx` lists, strictly increasing, the positions of the candidates that
      make up `k`: each is a successful insertion, and every successful
      insertion is listed. */
  predicate IndexesKept(es: seq<Entry>, ok: seq<bool>, k: seq<Entry>, idx: seq<nat>)
    requires |ok| == |es|
  {
    && |idx| == |k|
    && (forall j :: 0 <= j < |idx| ==> idx[j] < |es| && ok[idx[j]] && k[j] == es[idx[j]])
    && (forall j, j' :: 0 <= j < j' < |idx| ==> idx[j] < idx[j'])
    && (forall i :: 0 <= i < |es| && ok[i] ==> i in idx)
  }

  /** Offering one more candidate extends the listing by its position exactly
      when its insertion succeeds. */
  lemma IndexesExtend(es: seq<Entry>, ok: seq<bool>, k0: seq<Entry>, idx0: seq<nat>)
    requires |ok| == |es| > 0
    requires IndexesKept(es[.. |es| - 1], ok[.. |ok| - 1], k0, idx0)
    ensures var n := |es| - 1;
            IndexesKept(es, ok, k0 + (if ok[n] then [es[n]] else []), if ok[n] then idx0 + [n] else idx0)
  {
    var n := |es| - 1;
    var k := k0 + (if ok[n] then [es[n]] else []);
    var idx := if ok[n] then idx0 + [n] else idx0;
    forall j | 0 <= j < |idx|
      ensures idx[j] < |es| && ok[idx[j]] && k[j] == es[idx[j]]
    {
      if j < |idx0| {
        assert ok[.. n][idx0[j]] && es[.. n][idx0[j]] == k0[j];
      }
    }
    forall i | 0 <= i < |es| && ok[i]
      ensures i in idx
    {
      if i < n {
        assert ok[.. n][i];
      }
    }
  }

  /** The kept entries are exactly the candidates whose insertion succeeded,
      in the order offered: `idx` lists their positions, strictly increasing,
      and names every successful position. */
  lemma {:induction false} KeptIndices(es: seq<Entry>, ok: seq<bool>) returns (idx: seq<nat>)
    requires |ok| == |es|
    ensures IndexesKept(es, ok, Kept(es, ok), idx)
  {
    if |es| == 0 {
      idx := [];
    } else {
      var n := |es| - 1;
      var k0 := Kept(es[.. n], ok[.. n]);
      var idx0 := KeptIndices(es[.. n], ok[.. n]);
      IndexesExtend(es, ok, k0, idx0);
      assert Kept(es, ok) == k0 + (if ok[n] then [es[n]] else []);
      idx := if ok[n] then idx0 + [n] else idx0;
    }
  }

  /** The index of the last entry for `cur`: `CB_SETCURSEL` is sent for every
      matching entry, so the last one wins. */
  function LastMatch(es: seq<Entry>, cur: string): (r: Option<nat>)
    ensures r.Some? ==> r.value < |es| && Matches(es[r.value], cur)
    ensures r.Some? ==> forall j :: r.value < j < |es| ==> !Matches(es[j], cur)
    ensures r.None? <==> forall j :: 0 <= j < |es| ==> !Matches(es[j], cur)
  {
    if |es| == 0 then None
    else if Matches(es[|es| - 1], cur) then Some(|es| - 1)
    else LastMatch(es[.. |es| - 1], cur)
  }

  /** The selection after the kept entries `k` were appended to `c`: the last
      of them for `cur`, if any, otherwise the old selection. */
  function SelAfter(c: Combo, k: seq<Entry>, cur: string): (sel: Option<nat>)
    requires Valid(c)
    ensures sel.Some? ==> sel.value < |c.items| + |k|
  {
    match LastMatch(k, cur)
    case Some(j) => Some(|c.items| + j)
    case None => c.sel
  }

  /** The combo box after the candidates `es` were offered to it. */
  function Populated(c: Combo, es: seq<Entry>, ok: seq<bool>, cur: string): (r: Combo)
    requires Valid(c) && |ok| == |es|
    ensures Valid(r)
  {
    var k := Kept(es, ok);
    Combo(c.items + k, SelAfter(c, k, cur))
  }

  /** After the candidates are offered, the kept entries follow the existing
      items; the selection moves only to a kept entry for `cur`, the last such
      entry, and stays where it was exactly when no kept entry is for `cur`. */
  lemma PopulatedSelection(c: Combo, es: seq<Entry>, ok: seq<bool>, cur: string)
    requires Valid(c) && |ok| == |es|
    ensures var r := Populated(c, es, ok, cur);
            r.items == c.items + Kept(es, ok) &&
            (r.sel != c.sel ==>
               r.sel.Some? && |c.items| <= r.sel.value && Matches(r.items[r.sel.value], cur)) &&
            (r.sel.Some? && |c.items| <= r.sel.value ==>
               forall j :: r.sel.value < j < |r.items| ==> !Matches(r.items[j], cur)) &&
            ((forall j :: |c.items| <= j < |r.items| ==> !Matches(r.items[j], cur)) <==> r.sel == c.sel)
  {
    var k := Kept(es, ok);
    var r := Populated(c, es, ok, cur);
    var base := |c.items|;
    assert forall j :: base <= j < |r.items| ==> r.items[j] == k[j - base];
    match LastMatch(k, cur)
    case Some(j) =>
      assert r.items[base + j] == k[j];
      assert r.sel == Some(base + j) != c.sel;
    case None =>
      assert r.sel == c.sel;
  }

  /** Offering one more candidate extends the kept entries by it exactly when
      its insertion succeeded. */
  lemma KeptStep(es: seq<Entry>, ok: seq<bool>, n: nat)
    requires |ok| == |es| && n < |es|
    ensures Kept(es[.. n + 1], ok[.. n + 1]) ==
            Kept(es[.. n], ok[.. n]) + (if ok[n] then [es[n]] else [])
  {
    assert es[.. n + 1][.. n] == es[.. n] && ok[.. n + 1][.. n] == ok[.. n];
  }

  /** A new last entry becomes the last match exactly when it is for `cur`. */
  lemma LastMatchStep(k: seq<Entry>, e: Entry, cur: string)
    ensures LastMatch(k + [e], cur) == if Matches(e, cur) then Some(|k|) else LastMatch(k, cur)
  {
    assert (k + [e])[.. |k|] == k;
  }

  /** One pass of the insertion loop: `CB_ADDSTRING` appends the entry when it
      succeeds (`added`), and `CB_SETCURSEL` then selects it if it is the entry
      for `cur`; a failed insertion leaves the combo box as it was. */
  function AddOne(r: Combo, e: Entry, added: bool, cur: string): (r': Combo)
    ensures !added ==> r' == r
    ensures added ==> r'.items == r.items + [e]
    ensures added && StrIMatch(e.fname, cur) ==> r'.sel == Some(|r.items|)
    ensures added && !StrIMatch(e.fname, cur) ==> r'.sel == r.sel
  {
    if !added then r
    else
      var i := |r.items|;
      var r1 := Combo(r.items + [e], r.sel);
      if StrIMatch(e.fname, cur) then Combo(r1.items, Some(i)) else r1
  }

  /** One pass appends the entry to the kept ones exactly when its insertion
      succeeds, and the selection follows the last kept match. */
  lemma AddOneKept(c: Combo, k: seq<Entry>, e: Entry, added: bool, cur: string, r: Combo)
    requires Valid(c)
    requires r.items == c.items + k && r.sel == SelAfter(c, k, cur)
    ensures var k' := k + (if added then [e] else []);
            AddOne(r, e, added, cur) == Combo(c.items + k', SelAfter(c, k', cur))
  {
    if added {
      LastMatchStep(k, e, cur);
      assert c.items + (k + [e]) == r.items + [e];
    } else {
      assert k + [] == k;
    }
  }

  /** One pass keeps the loop's account of the combo box: its items are the
      existing ones plus the entries kept so far, and its selection is the last
      kept match. */
  lemma AddOneStep(c: Combo, es: seq<Entry>, ok: seq<bool>, cur: string, n: nat, r: Combo)
    requires Valid(c) && |ok| == |es| && n < |es|
    requires r.items == c.items + Kept(es[.. n], ok[.. n])
    requires r.sel == SelAfter(c, Kept(es[.. n], ok[.. n]), cur)
    ensures AddOne(r, es[n], ok[n], cur) ==
            Combo(c.items + Kept(es[.. n + 1], ok[.. n + 1]), SelAfter(c, Kept(es[.. n + 1], ok[.. n + 1]), cur))
  {
    KeptStep(es, ok, n);
    AddOneKept(c, Kept(es[.. n], ok[.. n]), es[n], ok[n], cur, r);
  }

  /** The insertion loop shared by `loadLangFiles` and `loadHelpFiles`: each
      candidate is offered to the combo box in order, with `ok[i]` telling
      whether its `CB_ADDSTRING` succeeded. */
  method AddCandidates(c: Combo, es: seq<Entry>, ok: seq<bool>, cur: string) returns (r: Combo)
    requires Valid(c) && |ok| == |es|
    ensures r == Populated(c, es, ok, cur)
  {
    r := c;
    for n := 0 to |es|
      invariant r.items == c.items + Kept(es[.. n], ok[.. n])
      invariant r.sel == SelAfter(c, Kept(es[.. n], ok[.. n]), cur)
    {
      AddOneStep(c, es, ok, cur, n, r);
      r := AddOne(r, es[n], ok[n], cur);
    }
    assert es[.. |es|] == es && ok[.. |ok|] == ok;
  }

  /** `getComboSel`: the file name of the selected entry, or the empty string
      when nothing is selected or the index names no item (`CB_ERR`). */
  function ComboSel(c: Combo): (f: string)
    ensures c.sel.Some? && c.sel.value < |c.items| ==> f == c.items[c.sel.value].fname
    ensures c.sel.None? ==> f == ""
    ensures f != "" ==> c.sel.Some? && c.sel.value < |c.items| && f == c.items[c.sel.value].fname
  {
    match c.sel
    case None => ""
    case Some(n) => if n < |c.items| then c.items[n].fname else ""
  }

  /** In a freshly populated combo box, the selection reads back as the file
      name of the last kept entry for `cur`. */
  lemma SelectedName(es: seq<Entry>, ok: seq<bool>, cur: string)
    requires |ok| == |es|
    requires LastMatch(Kept(es, ok), cur).Some?
    ensures ComboSel(Populated(Empty, es, ok, cur)) ==
            Kept(es, ok)[LastMatch(Kept(es, ok), cur).value].fname
  {
    var k := Kept(es, ok);
    var j := LastMatch(k, cur).value;
    assert |Empty.items| == 0;
    assert SelAfter(Empty, k, cur) == Some(j);
  }

  /** Reading back the selection of a freshly populated combo box: when some
      kept entry is for `cur`, the selection is one of them and names `cur` up
      to case; otherwise nothing is selected and the selection reads as empty. */
  lemma SelectionRoundTrip(es: seq<Entry>, ok: seq<bool>, cur: string)
    requires |ok| == |es|
    ensures var r := Populated(Empty, es, ok, cur);
            (exists j :: 0 <= j < |r.items| && Matches(r.items[j], cur)) ==>
              r.sel.Some? && StrIMatch(ComboSel(r), cur) && ComboSel(r) == r.items[r.sel.value].fname
    ensures var r := Populated(Empty, es, ok, cur);
            (forall j :: 0 <= j < |r.items| ==> !Matches(r.items[j], cur)) ==>
              r.sel.None? && ComboSel(r) == ""
  {
    PopulatedSelection(Empty, es, ok, cur);
  }
}

=== FILE: file_cursor.dfy ===
/** An open, read-only file handle: the file's bytes and the current file pointer.
    The help-file reader only ever places the pointer at the end of the file and
    moves it backwards, so the pointer never lies past the end of the data. */
module FileCursor {
  import opened Wrappers
  import opened Bytes

  datatype FileState = FileState(data: seq<byte>, pos: nat)

  /** A file handle whose pointer lies within the file (at most at its end). */
  type Cursor = c: FileState | c.pos <= |c.data| witness FileState([], 0)

  /** Opens a file and moves the pointer to its end (`setPosFromEnd32(0)`). */
  function AtEnd(data: seq<byte>): (c: Cursor)
    ensures c.data == data && c.pos == |data|
  {
    FileState(data, |data|)
  }

  /** `SetFilePointer(file, -n, 0, FILE_CURRENT)`: moves the pointer back `n` bytes;
      fails when that would place it before the start of the file. */
  function SeekBack(c: Cursor, n: nat): (r: Option<Cursor>)
    ensures r.Some? <==> n <= c.pos
    ensures r.Some? ==> r.value.data == c.data && r.value.pos + n == c.pos
  {
    if n <= c.pos then Some(FileState(c.data, c.pos - n)) else None
  }

  /** `ReadFile(file, buf, n, &read, 0)`: reads up to `n` bytes from the pointer,
      fewer when the end of the file comes first, and advances the pointer past
      what was read. */
  function Read(c: Cursor, n: nat): (r: (seq<byte>, Cursor))
    ensures |r.0| <= n && c.pos + |r.0| <= |c.data|
    ensures |r.0| == n <==> c.pos + n <= |c.data|
    ensures r.0 == c.data[c.pos .. c.pos + |r.0|]
    ensures r.1.data == c.data && r.1.pos == c.pos + |r.0|
  {
    var count := if c.pos + n <= |c.data| then n else |c.data| - c.pos;
    (c.data[c.pos .. c.pos + count], FileState(c.data, c.pos + count))
  }

  /** `readFileBack(file, buf, n)`: seeks back `n` bytes, reads `n` bytes, and seeks
      back over them again. It succeeds exactly when the pointer is at least `n`
      bytes from the start; the buffer then holds the `n` bytes just before the
      pointer, and the pointer is left at their first byte, ready for the next
      backward read. */
  function ReadBack(c: Cursor, n: nat): (r: Option<(seq<byte>, Cursor)>)
    ensures r.Some? <==> n <= c.pos
    ensures r.Some? ==> r.value.0 == c.data[c.pos - n .. c.pos]
    ensures r.Some? ==> r.value.1.data == c.data && r.value.1.pos == c.pos - n
  {
    match SeekBack(c, n)
    case None => None
    case Some(c1) =>
      var (buf, c2) := Read(c1, n);
      if |buf| != n then None
      else
        match SeekBack(c2, n)
        case None => None
        case Some(c3) => Some((buf, c3))
  }

  /** Two consecutive backward reads cover adjacent, non-overlapping stretches
      of the file: read in file order they give the bytes before the pointer. */
  lemma ReadBackTwice(c: Cursor, m: nat, n: nat)
    requires m + n <= c.pos
    ensures ReadBack(c, m).Some?
    ensures ReadBack(ReadBack(c, m).value.1, n).Some?
    ensures var (first, c1) := ReadBack(c, m).value;
            var (second, c2) := ReadBack(c1, n).value;
            second + first == c.data[c.pos - m - n .. c.pos] && c2.pos == c.pos - m - n
  {
    var c1 := ReadBack(c, m).value.1;
    assert c1.data == c.data && c1.pos == c.pos - m;
    Adjacent(c.data, c.pos - m - n, c.pos - m, c.pos);
  }

  /** Two adjacent slices make up the slice spanning both. */
  lemma Adjacent(s: seq<byte>, a: nat, b: nat, e: nat)
    requires a <= b <= e <= |s|
    ensures s[a .. b] + s[b .. e] == s[a .. e]
  {
  }
}

=== FILE: help_trailer.dfy ===
/** The language description appended to a compiled help file, and the
    backward reader that recovers it.

    Layout at the end of the file:
      file data | len raw description bytes | len (DWORD) | signature (DWORD)
    The description bytes are in the thread's ANSI code page. */
module HelpTrailer {
  import opened Wrappers
  import opened Bytes
  import opened FileCursor

  /** The signature that marks a help file carrying a description. */
  const CHM_MARKER_SIG: dword := 0xefda7a00

  /** Lengths from here up turn negative when the reader casts `len` to `int`. */
  const INT_LIMIT: nat := 0x8000_0000

  /** The file ends with the signature. */
  predicate HasSignature(data: seq<byte>)
  {
    |data| >= 4 && Dword(data[|data| - 4 ..]) == CHM_MARKER_SIG
  }

  /** The length field of a signed file, read as a DWORD. */
  function LenField(data: seq<byte>): dword
    requires |data| >= 8
  {
    Dword(data[|data| - 8 .. |data| - 4])
  }

  /** The files the model covers: a signed file's length field stays below 2^31. */
  predicate LenFieldFits(data: seq<byte>)
  {
    HasSignature(data) && |data| >= 8 ==> LenField(data) < INT_LIMIT
  }

  /** A file laid out with payload `p` after the data `d`. */
  function Layout(d: seq<byte>, p: seq<byte>): (f: seq<byte>)
    requires |p| < INT_LIMIT
    ensures |f| == |d| + |p| + 8
  {
    d + p + Le32(|p|) + Le32(CHM_MARKER_SIG)
  }

  /** What the backward reader found: the payload, if any, and the sizes of
      the backward reads it attempted, in order. */
  datatype Parsed = Parsed(payload: Option<seq<byte>>, attempts: seq<nat>)

  /** The three backward reads of `getHelpFileDescr`: signature, length, payload.
      The length read is attempted only after a matching signature, and the
      payload read only after a length was read. */
  function ParseTrailer(data: seq<byte>): (r: Parsed)
    requires LenFieldFits(data)
    ensures r.attempts == if !HasSignature(data) then [4]
                         else if |data| < 8 then [4, 4]
                         else [4, 4, LenField(data)]
    ensures r.payload.Some? <==> HasSignature(data) && |data| >= 8 && LenField(data) <= |data| - 8
    ensures r.payload.Some? ==>
              r.payload.value == data[|data| - 8 - LenField(data) .. |data| - 8]
  {
    match ReadBack(AtEnd(data), 4)
    case None => Parsed(None, [4])
    case Some((sig, c1)) =>
      if Dword(sig) != CHM_MARKER_SIG then Parsed(None, [4])
      else
        match ReadBack(c1, 4)
        case None => Parsed(None, [4, 4])
        case Some((lenBytes, c2)) =>
          var len := Dword(lenBytes);
          match ReadBack(c2, len)
          case None => Parsed(None, [4, 4, len])
          case Some((payload, _)) => Parsed(Some(payload), [4, 4, len])
  }

  /** `MultiByteToWideChar` on a single-byte code page, given as a map from byte
      to character. The call fails on an empty input, which leaves the
      description empty; otherwise every byte becomes one character. */
  function Convert(p: seq<byte>, decode: byte -> char): (s: string)
    ensures |s| == |p|
    ensures forall i :: 0 <= i < |p| ==> s[i] == decode(p[i])
  {
    if |p| == 0 then "" else seq(|p|, i requires 0 <= i < |p| => decode(p[i]))
  }

  /** `getHelpFileDescr`: the description of a help file, or the empty string
      when the file cannot be opened or does not carry a readable trailer.
      `file` is the file's content, or None when it cannot be opened. */
  function HelpFileDescr(file: Option<seq<byte>>, decode: byte -> char): (s: string)
    requires file.Some? ==> LenFieldFits(file.value)
    ensures file.None? ==> s == ""
    ensures file.Some? && !HasSignature(file.value) ==> s == ""
    ensures file.Some? && |file.value| < 8 ==> s == ""
    ensures file.Some? && HasSignature(file.value) && |file.value| >= 8 ==>
              var data := file.value;
              var len := LenField(data);
              (len > |data| - 8 ==> s == "") &&
              (len <= |data| - 8 ==> s == Convert(data[|data| - 8 - len .. |data| - 8], decode))
  {
    match file
    case None => ""
    case Some(data) =>
      match ParseTrailer(data).payload
      case None => ""
      case Some(p) => Convert(p, decode)
  }

  /** The fields of a laid-out file sit where the reader looks for them. */
  lemma LayoutFields(d: seq<byte>, p: seq<byte>)
    requires |p| < INT_LIMIT
    ensures HasSignature(Layout(d, p))
    ensures LenField(Layout(d, p)) == |p|
    ensures var f := Layout(d, p);
            f[|f| - 8 - |p| .. |f| - 8] == p
  {
    var f := Layout(d, p);
    var n := |f|;
    assert f == (d + p) + Le32(|p|) + Le32(CHM_MARKER_SIG);
    assert f[n - 4 ..] == Le32(CHM_MARKER_SIG);
    assert f[n - 8 .. n - 4] == Le32(|p|);
    assert f[n - 8 - |p| .. n - 8] == p;
    DwordOfLe32(CHM_MARKER_SIG);
    DwordOfLe32(|p|);
  }

  /** Every laid-out file is accepted, and the reader recovers exactly the
      payload after reading signature, length and payload. */
  lemma {:induction false} ParseLayout(d: seq<byte>, p: seq<byte>)
    requires |p| < INT_LIMIT
    ensures LenFieldFits(Layout(d, p))
    ensures ParseTrailer(Layout(d, p)) == Parsed(Some(p), [4, 4, |p|])
  {
    LayoutFields(d, p);
    var f := Layout(d, p);
    var r := ParseTrailer(f);
    assert r.attempts == [4, 4, |p|];
    assert r.payload.Some?;
    assert |r.payload.value| == |p|;
  }

  /** A sequence is the concatenation of its pieces between three cut points. */
  lemma SplitFour(s: seq<byte>, a: nat, b: nat, c: nat)
    requires a <= b <= c <= |s|
    ensures s == s[.. a] + s[a .. b] + s[b .. c] + s[c ..]
  {
    assert s[.. c] == s[.. a] + s[a .. b] + s[b .. c];
    assert s == s[.. c] + s[c ..];
  }

  /** The last eight bytes of a signed file are the encodings of its length
      field and of the signature. */
  lemma TrailerFields(data: seq<byte>)
    requires HasSignature(data) && |data| >= 8
    ensures data[|data| - 8 .. |data| - 4] == Le32(LenField(data))
    ensures data[|data| - 4 ..] == Le32(CHM_MARKER_SIG)
  {
    Le32OfDword(data[|data| - 8 .. |data| - 4]);
    Le32OfDword(data[|data| - 4 ..]);
  }

  /** Whatever the reader accepts is a laid-out file: the bytes before the
      payload are the file data, and the trailer is exactly the payload, its
      length and the signature. */
  lemma {:induction false} ParseSound(data: seq<byte>)
    requires LenFieldFits(data)
    requires ParseTrailer(data).payload.Some?
    ensures var p := ParseTrailer(data).payload.value;
            |p| < INT_LIMIT && data == Layout(data[.. |data| - 8 - |p|], p)
  {
    var p := ParseTrailer(data).payload.value;
    var n := |data|;
    assert HasSignature(data) && n >= 8 && |p| == LenField(data);
    TrailerFields(data);
    SplitFour(data, n - 8 - |p|, n - 8, n - 4);
  }

  /** Whatever the reader accepts as payload `p` is some data followed by `p`,
      its length and the signature. */
  lemma AcceptedIsLayout(data: seq<byte>, p: seq<byte>)
    requires LenFieldFits(data)
    requires ParseTrailer(data).payload == Some(p)
    ensures exists d :: data == Layout(d, p)
  {
    ParseSound(data);
    assert data == Layout(data[.. |data| - 8 - |p|], p);
  }

  /** A file equal to some laid-out data is accepted with its payload. */
  lemma LayoutIsAccepted(data: seq<byte>, d: seq<byte>, p: seq<byte>)
    requires |p| < INT_LIMIT && data == Layout(d, p)
    ensures LenFieldFits(data) && ParseTrailer(data).payload == Some(p)
  {
    ParseLayout(d, p);
  }

  /** The reader accepts a file with payload `p` exactly when the file is some
      data followed by `p`, its length and the signature. */
  lemma ParseIff(data: seq<byte>, p: seq<byte>)
    requires LenFieldFits(data) && |p| < INT_LIMIT
    ensures ParseTrailer(data).payload == Some(p) <==> exists d :: data == Layout(d, p)
  {
    if ParseTrailer(data).payload == Some(p) {
      AcceptedIsLayout(data, p);
    }
    if d :| data == Layout(d, p) {
      LayoutIsAccepted(data, d, p);
    }
  }

  /** Round trip through the help-file description: a laid-out file yields the
      payload decoded character by character. */
  lemma HelpFileDescrRoundTrip(d: seq<byte>, p: seq<byte>, decode: byte -> char)
    requires |p| < INT_LIMIT
    ensures LenFieldFits(Layout(d, p))
    ensures var s := HelpFileDescr(Some(Layout(d, p)), decode);
            |s| == |p| && forall i :: 0 <= i < |p| ==> s[i] == decode(p[i])
  {
    var f := Layout(d, p);
    assert HelpFileDescr(Some(f), decode) == Convert(p, decode) by {
      ParseLayout(d, p);
    }
  }

  /** A description is recovered only from a laid-out file: the description is
      the decoded payload, and the file is its data followed by that payload,
      its length and the signature. */
  lemma HelpFileDescrOnlyFromLayout(data: seq<byte>, decode: byte -> char)
    requires LenFieldFits(data)
    requires HelpFileDescr(Some(data), decode) != ""
    ensures ParseTrailer(data).payload.Some?
    ensures var p := ParseTrailer(data).payload.value;
            |p| < INT_LIMIT && data == Layout(data[.. |data| - 8 - |p|], p) &&
            HelpFileDescr(Some(data), decode) == Convert(p, decode)
  {
    ParseSound(data);
  }
}

=== FILE: lang_page.dfy ===
/** The language page's own logic: committing the selections to the option
    record (`apply`) and ordering entries for the owner-drawn combo boxes
    (`WM_COMPAREITEM`). */
module LangPage {
  import opened Wrappers
  import opened ComboBox

  /** The part of the program's options this page edits. */
  datatype Options = Options(uiFile: string, helpFile: string)

  /** The collaborators `apply` calls: switching the running UI module
      (`app.loadResMod`) and restarting help (`app.help.init`). */
  datatype Call = LoadResMod(file: string) | HelpInit(file: string)

  /** The option record after applying, and the calls made, in order. */
  datatype Applied = Applied(opt: Options, calls: seq<Call>)

  /** `apply`: the UI language is switched only when its selection differs from
      the stored one, and falls back to the built-in language (empty name) when
      the switch fails; the help file is always stored and help always
      restarted. `loads` tells whether `loadResMod` succeeds on a file. */
  function Apply(opt: Options, uiCombo: Combo, helpCombo: Combo, loads: string -> bool): (r: Applied)
    ensures var ui := ComboSel(uiCombo);
            ui == opt.uiFile ==>
              r.opt.uiFile == opt.uiFile && forall i :: 0 <= i < |r.calls| ==> !r.calls[i].LoadResMod?
    ensures var ui := ComboSel(uiCombo);
            ui != opt.uiFile ==>
              |r.calls| == 2 && r.calls[0] == LoadResMod(ui) &&
              r.opt.uiFile == (if loads(ui) then ui else "")
    ensures r.opt.helpFile == ComboSel(helpCombo)
    ensures |r.calls| > 0 && r.calls[|r.calls| - 1] == HelpInit(r.opt.helpFile)
    ensures forall i :: 0 <= i < |r.calls| - 1 ==> !r.calls[i].HelpInit?
  {
    var ui := ComboSel(uiCombo);
    var (uiFile, switchCalls) :=
      if opt.uiFile != ui then
        (if loads(ui) then ui else "", [LoadResMod(ui)])
      else (opt.uiFile, []);
    var helpFile := ComboSel(helpCombo);
    Applied(Options(uiFile, helpFile), switchCalls + [HelpInit(helpFile)])
  }

  /** Apply stores the file name of the entry the user selected: the help
      entry always, and the UI entry when it differs from the stored name and
      the switch to it succeeds. */
  lemma ApplyStoresSelectedEntries(opt: Options, uiCombo: Combo, helpCombo: Combo, loads: string -> bool)
    requires Valid(uiCombo) && Valid(helpCombo)
    ensures var r := Apply(opt, uiCombo, helpCombo, loads);
            helpCombo.sel.Some? ==> r.opt.helpFile == helpCombo.items[helpCombo.sel.value].fname
    ensures var r := Apply(opt, uiCombo, helpCombo, loads);
            helpCombo.sel.None? ==> r.opt.helpFile == ""
    ensures var r := Apply(opt, uiCombo, helpCombo, loads);
            uiCombo.sel.Some? ==>
              var chosen := uiCombo.items[uiCombo.sel.value].fname;
              chosen != opt.uiFile ==> r.opt.uiFile == (if loads(chosen) then chosen else "")
  {
  }

  /** When the UI selection equals the stored name, apply switches nothing: it
      stores the help selection and restarts help, and that is all. */
  lemma ApplyUnchanged(opt: Options, uiCombo: Combo, helpCombo: Combo, loads: string -> bool)
    requires ComboSel(uiCombo) == opt.uiFile
    ensures var help := ComboSel(helpCombo);
            Apply(opt, uiCombo, helpCombo, loads) == Applied(Options(opt.uiFile, help), [HelpInit(help)])
  {
  }

  /** After an apply that left the UI file at the selection (unchanged, or
      switched successfully), applying the same selections again changes
      nothing and only restarts help. */
  lemma ApplyTwice(opt: Options, uiCombo: Combo, helpCombo: Combo, loads: string -> bool)
    requires Apply(opt, uiCombo, helpCombo, loads).opt.uiFile == ComboSel(uiCombo)
    ensures var once := Apply(opt, uiCombo, helpCombo, loads);
            Apply(once.opt, uiCombo, helpCombo, loads) == Applied(once.opt, [HelpInit(once.opt.helpFile)])
  {
  }

  /** A failed switch is retried by the next apply: the stored name fell back to
      the built-in language, so a non-empty selection differs from it again. */
  lemma FailedSwitchRetried(opt: Options, uiCombo: Combo, helpCombo: Combo, loads: string -> bool)
    requires ComboSel(uiCombo) != opt.uiFile && ComboSel(uiCombo) != ""
    requires !loads(ComboSel(uiCombo))
    ensures var once := Apply(opt, uiCombo, helpCombo, loads);
            once.opt.uiFile == "" &&
            Apply(once.opt, uiCombo, helpCombo, loads).calls[0] == LoadResMod(ComboSel(uiCombo))
  {
  }

  /** Opening the page and applying without touching it keeps the UI language
      when the entry selected for it carries exactly the stored name: no
      switch is attempted. */
  lemma ReopenKeepsUiFile(opt: Options, es: seq<Entry>, ok: seq<bool>, helpCombo: Combo,
                          loads: string -> bool)
    requires |ok| == |es|
    requires var k := Kept(es, ok);
             var m := LastMatch(k, opt.uiFile);
             m.Some? && k[m.value].fname == opt.uiFile
    ensures var r := Apply(opt, Populated(Empty, es, ok, opt.uiFile), helpCombo, loads);
            r.opt.uiFile == opt.uiFile && r.calls == [HelpInit(ComboSel(helpCombo))]
  {
    SelectedName(es, ok, opt.uiFile);
    ApplyUnchanged(opt, Populated(Empty, es, ok, opt.uiFile), helpCombo, loads);
  }

  /** Opening the page and applying without touching it, when no listed entry is
      for the stored UI file (the file is gone, or its insertion failed), switches
      to the built-in language. */
  lemma StaleUiFileFallsBack(opt: Options, es: seq<Entry>, ok: seq<bool>, helpCombo: Combo,
                             loads: string -> bool)
    requires |ok| == |es| && opt.uiFile != ""
    requires LastMatch(Kept(es, ok), opt.uiFile).None?
    ensures var r := Apply(opt, Populated(Empty, es, ok, opt.uiFile), helpCombo, loads);
            r.calls[0] == LoadResMod("") && r.opt.uiFile == ""
  {
  }

  /** `CompareString`'s answer: failure (0), or less / equal / greater (1, 2, 3). */
  datatype Order = CompareFailed | Less | Equal | Greater
  {
    function Code(): (n: nat)
      ensures n <= 3 && (n == 0 <==> CompareFailed?)
    {
      match this
      case CompareFailed => 0
      case Less => 1
      case Equal => 2
      case Greater => 3
    }
  }

  /** `WM_COMPAREITEM`: orders two entries by their descriptions, with
      `compare` standing for the case-insensitive `CompareString` of the item's
      locale. An absent entry, or a failed comparison, counts as equal; the
      answer is otherwise `CompareString`'s code minus 2. */
  function CompareItems(d1: Option<Entry>, d2: Option<Entry>, compare: (string, string) -> Order): (r: int)
    ensures -1 <= r <= 1
    ensures r == -1 <==> d1.Some? && d2.Some? && compare(d1.value.descr, d2.value.descr) == Less
    ensures r == 1 <==> d1.Some? && d2.Some? && compare(d1.value.descr, d2.value.descr) == Greater
  {
    if d1.Some? && d2.Some? then
      var order := compare(d1.value.descr, d2.value.descr).Code();
      if order != 0 then order - 2 else 0
    else 0
  }

  /** A comparison that answers Greater exactly when the swapped comparison
      answers Less gives an antisymmetric item order. */
  lemma CompareItemsAntisymmetric(d1: Option<Entry>, d2: Option<Entry>, compare: (string, string) -> Order)
    requires forall a, b :: compare(a, b) == Less <==> compare(b, a) == Greater
    ensures CompareItems(d1, d2, compare) == -CompareItems(d2, d1, compare)
  {
    if d1.Some? && d2.Some? {
      var a, b := d1.value.descr, d2.value.descr;
      assert compare(a, b) == Less <==> compare(b, a) == Greater;
      assert compare(b, a) == Less <==> compare(a, b) == Greater;
    }
  }
}

=== FILE: lang_resources.dfy ===
/** `getLangFileDescr`: the language name stored in a UI-language module's
    string table (string IDS_LANG). */
module LangResources {
  import opened Wrappers

  /** A loaded resource module: the running program's own, or a library loaded
      from a language file. */
  datatype Module = OwnModule | Library(file: string)

  /** The operating system as this operation sees it: whether `LoadLibrary`
      succeeds on a file, and the IDS_LANG entry of a module's string table. */
  datatype Resources = Resources(loads: string -> bool, langString: Module -> Option<string>)

  /** `WCHAR buf[100]`: the characters the description buffer holds. */
  const DESCR_BUFFER_CHARS: nat := 100

  /** `sizeof(buf)`: the byte size of the buffer, which the source passes to
      `LoadString` as its character count. */
  const DESCR_CCH_AS_WRITTEN: nat := 2 * DESCR_BUFFER_CHARS

  function Min(a: nat, b: nat): nat
  {
    if a <= b then a else b
  }

  /** `LoadString(inst, IDS_LANG, buf, cchMax)`: the number of characters it
      copies, without the terminating NUL. It copies at most `cchMax - 1`
      characters, and returns 0 when the string is missing. */
  function LoadStringCount(entry: Option<string>, cchMax: nat): (k: nat)
    ensures entry.None? || cchMax == 0 ==> k == 0
    ensures entry.Some? && cchMax > 0 ==> k <= |entry.value| && k < cchMax
    ensures entry.Some? && cchMax > 0 && |entry.value| < cchMax ==> k == |entry.value|
    ensures entry.Some? && cchMax > 0 && |entry.value| >= cchMax ==> k == cchMax - 1
  {
    match entry
    case None => 0
    case Some(s) => if cchMax == 0 then 0 else Min(|s|, cchMax - 1)
  }

  /** The characters `LoadString` stores into the buffer: the copied text and
      its terminating NUL. */
  function BufferWrites(entry: Option<string>, cchMax: nat): (n: nat)
    ensures n <= cchMax
    ensures entry.Some? && cchMax > 0 ==> n == LoadStringCount(entry, cchMax) + 1
  {
    if entry.None? || cchMax == 0 then 0 else LoadStringCount(entry, cchMax) + 1
  }

  /** The module the description is read from: the program's own for the
      empty file name, otherwise the library loaded from the file, if any. */
  function Instance(res: Resources, file: string): (m: Option<Module>)
    ensures file == "" ==> m == Some(OwnModule)
    ensures file != "" ==> (m.Some? <==> res.loads(file)) && (m.Some? ==> m.value == Library(file))
  {
    if file == "" then Some(OwnModule)
    else if res.loads(file) then Some(Library(file))
    else None
  }

  /** The description found, and the module released with `FreeLibrary`. */
  datatype LangDescr = LangDescr(descr: string, freed: Option<Module>)

  /** `getLangFileDescr`, with the buffer size passed as a character count:
      the description is the IDS_LANG string of the file's module, cut to what
      fits the buffer, or empty when the module or the string is missing. A
      library loaded here is released again; the program's own module never is. */
  function LangFileDescr(res: Resources, file: string): (r: LangDescr)
    ensures r.freed != Some(OwnModule)
    ensures r.freed.Some? <==> file != "" && res.loads(file)
    ensures r.freed.Some? ==> r.freed.value == Library(file)
    ensures |r.descr| < DESCR_BUFFER_CHARS
    ensures Instance(res, file).None? ==> r.descr == ""
    ensures Instance(res, file).Some? ==>
              var entry := res.langString(Instance(res, file).value);
              (entry.None? ==> r.descr == "") &&
              (entry.Some? ==> r.descr <= entry.value) &&
              (entry.Some? && |entry.value| < DESCR_BUFFER_CHARS ==> r.descr == entry.value) &&
              (entry.Some? && |entry.value| >= DESCR_BUFFER_CHARS ==>
                 r.descr == entry.value[.. DESCR_BUFFER_CHARS - 1])
  {
    var inst := Instance(res, file);
    var entry := if inst.Some? then res.langString(inst.value) else None;
    var k := LoadStringCount(entry, DESCR_BUFFER_CHARS);
    var descr := if k == 0 then "" else entry.value[.. k];
    var freed := if file != "" && inst.Some? then inst else None;
    LangDescr(descr, freed)
  }

  /** The characters `getLangFileDescr` as written lets `LoadString` store into
      its 100-character buffer: it passes the buffer's byte size, 200. */
  function BufferWritesAsWritten(res: Resources, file: string): (n: nat)
    ensures n <= DESCR_CCH_AS_WRITTEN
    ensures Instance(res, file).None? ==> n == 0
    ensures Instance(res, file).Some? ==>
              var entry := res.langString(Instance(res, file).value);
              (entry.None? ==> n == 0) &&
              (entry.Some? ==> n == Min(|entry.value| + 1, DESCR_CCH_AS_WRITTEN))
  {
    var inst := Instance(res, file);
    var entry := if inst.Some? then res.langString(inst.value) else None;
    BufferWrites(entry, DESCR_CCH_AS_WRITTEN)
  }

  /** As written, `LoadString` writes past the end of the buffer exactly when
      the module has an IDS_LANG string of 100 characters or more; shorter
      strings fit even as written. */
  lemma AsWrittenOverflows(res: Resources, file: string)
    ensures var inst := Instance(res, file);
            var entry := if inst.Some? then res.langString(inst.value) else None;
            BufferWritesAsWritten(res, file) > DESCR_BUFFER_CHARS <==>
              entry.Some? && |entry.value| >= DESCR_BUFFER_CHARS
  {
  }

  /** With the character count the buffer actually has, what `LoadString`
      stores is the description `LangFileDescr` returns and its NUL, and that
      fits the buffer. */
  lemma CorrectedFits(res: Resources, file: string)
    ensures var inst := Instance(res, file);
            var entry := if inst.Some? then res.langString(inst.value) else None;
            entry.Some? ==>
              BufferWrites(entry, DESCR_BUFFER_CHARS) == |LangFileDescr(res, file).descr| + 1 &&
              |LangFileDescr(res, file).descr| + 1 <= DESCR_BUFFER_CHARS
  {
  }
}

=== FILE: wrappers.dfy ===
/** The optional-value type used throughout the model for operations that can fail. */
module Wrappers {

  /** A value that may be absent: a failed read, a missing string, no selection. */
  datatype Option<+T> = None | Some(value: T)
}
